=== FILE: README.md ===
# PyQt Notepad: tab and session bookkeeping

A Dafny model of the document bookkeeping of the notepad window in
`pyqt_notepad.py` (class `Notepad`). A window is an immutable record:

- `Window(tabs, current, recent, lastSearch)`, where each tab is
  `Tab(path: Option<string>, text, modified)`;
- `current` follows the tab widget's convention: it is -1 when there are no
  tabs and a valid index otherwise (`Tabs.WellFormed`);
- `recent` is the recent-files list kept under the `recentFiles` settings key;
- `lastSearch` is the query that Find Next and Find Previous repeat.

Every operation is a pure transition over this record. The outside world comes
in as parameters:

- file reads are a `FileSystem` map, and a path is readable exactly when it is
  a key;
- a write is a `writeOk` flag;
- the Save As dialog's answer is a path, with `""` meaning cancelled, as
  `QFileDialog` returns it;
- the "document has been modified" prompt gives an `Answer`
  (Save, Discard or Cancel).

Modules:

- `Common`: the `Option` type, Python truthiness of an optional path, and
  duplicate-freedom.
- `RecentFiles`: `add_to_recent_files`. The path moves to the front, its
  first earlier occurrence is dropped, and the list is cut at 10 entries.
- `Tabs`: `new_tab`, `set_tab_file_path` and `open_file`. Opening a path
  either focuses the tab that already has it, reuses a blank unbound current
  tab, or appends a new tab.
- `Saving`: `save_file`, `save_as_file`, `save_all_files`, the `maybe_save`
  gate and `close_tab`.
- `Session`: `save_session` (`Snapshot`) and `restore_session`
  (`RestoreSession`), with the snapshot/restore round trip.
- `Search`: the `last_search` bookkeeping of `find_text`, `find_next` and
  `find_prev`.
- `Lifecycle`: `closeEvent`. "Close Window" stores the session. A full exit
  sweeps the tabs from last to first and clears the stored session only if
  every tab closed.

Behaviours of the code that a reader might not expect:

- Restore falls back to one blank tab only when the stored session is missing,
  empty or corrupt. If every stored entry is skipped, for example because every
  file is unreadable, the window ends up with no tab
  (`Session.RestoreCanLeaveNoTab`).
- Save As binds the tab and updates the recent list before it writes. A failed
  write therefore leaves the tab bound to the new path, with the modified flag
  still set (`Saving.SaveFile`, `Saving.PathAfterSave`).
- Python's `list.remove` removes only the first occurrence. Adding a path
  therefore leaves it at index 0 and nowhere else only when the stored list had
  no duplicates. `RecentFiles.AddToRecent` states the property under that
  hypothesis and shows that duplicate-freedom is preserved.

Three behaviours come from Qt, not from the Python file, and are assumptions of
the model:

- `setText` leaves a document unmodified, so a freshly loaded tab is clean.
- `toPlainText()` returns, unchanged, the content that was passed to `setText`.
  In Qt this fails in two ways. `setText` guesses the format, so content whose
  first line looks like HTML (`<b>x</b>`) is rendered as rich text and reads
  back as `x`; `setAcceptRichText(False)` affects only pasting and dropping.
  And `toPlainText()` rewrites some characters even in plain text: U+00A0
  reads back as a space, and U+2028, U+2029, U+FDD0 and U+FDD1 read back as
  a line feed. Such content is not modelled: every statement below about a
  tab's text holds for content that `toPlainText()` returns unchanged after
  `setText`.
- Removing a tab follows `QTabBar`'s default policy. Removing the current tab
  selects its right neighbour, or the new last tab.

## Model

| member | source | states |
|---|---|---|
| `RecentFiles.RemoveFirst` | pyqt_notepad.py:373-374 | removes only the first occurrence of the path and keeps the order of every other entry; an absent path leaves the list as it is |
| `RecentFiles.AddToRecent` | pyqt_notepad.py:370-376 | the path is at index 0; the list has at most 10 entries, and its length is min(10, old length, plus 1 if the path was new); every other entry keeps its relative order with the path's old position skipped; a duplicate-free list stays duplicate-free, so the path appears nowhere else |
| `RecentFiles.AddToRecentIdempotent` | pyqt_notepad.py:370-376 | adding the same path twice gives the same list as adding it once, which makes the double update in `open_file` (lines 203 and 231) harmless |
| `RecentFiles.AddToRecentEvictsOldest` | pyqt_notepad.py:375-376 | adding a new path to a full list of 10 evicts the entry at index 9, and the new path becomes index 0 |
| `RecentFiles.AddToRecentReorders` | pyqt_notepad.py:373-376 | re-adding a path already in a duplicate-free list of at most 10 keeps exactly the same entries |
| `Tabs.FindTab` | pyqt_notepad.py:219-220 | returns the first tab bound to the path, or the tab count when no tab is bound to it |
| `Tabs.SetTabFilePath` | pyqt_notepad.py:199-203 | binds exactly that tab to the path, leaves its text, its flag and every other tab as they were, and moves the path to the front of the recent list |
| `Tabs.BoundTabIsFound` | pyqt_notepad.py:199-220 | once a tab is bound to a path, the lookup in `open_file` finds a tab bound to that path at that index or earlier, so opening the path again focuses instead of duplicating |
| `Tabs.NewTab` | pyqt_notepad.py:184-197 | appends one clean tab after the unchanged existing tabs and selects it; a truthy path binds the tab and updates the recent list, and a falsy path leaves the tab unbound |
| `Tabs.OpenFile` | pyqt_notepad.py:209-234 | a cancelled dialog or an unreadable file leaves the window unchanged, even when the path is already open; a path already bound to a tab only moves the focus, leaving tabs and recent list untouched; otherwise a blank unbound current tab is reused in place and the tab count stays the same, or else one tab is appended and selected; the focused tab then holds the file's content (for content that `toPlainText()` returns unchanged) and the path heads the recent list |
| `Saving.WriteTab` | pyqt_notepad.py:246-254 | a successful write clears the tab's modified flag and updates the recent list; a failed write changes nothing and returns false |
| `Saving.SaveAsFile` | pyqt_notepad.py:256-268 | a cancelled dialog or a missing tab fails and changes nothing; otherwise the tab is bound to the chosen path and the path is recorded before the write, and the result is the write's outcome |
| `Saving.SaveFile` | pyqt_notepad.py:236-254 | succeeds exactly when the tab exists and, if unbound, a path is chosen, and the write succeeds; only that tab and the recent list change; its text is kept; success clears the modified flag and failure keeps it |
| `Saving.RecordSave` | pyqt_notepad.py:236-268 | a save attempt on a modified tab moves the path the tab ends bound to to the front of the recent list exactly when the write succeeds or, for an unbound tab, a path is chosen; otherwise the list is unchanged; the list stays duplicate-free and within 10 entries |
| `Saving.MaybeSave` | pyqt_notepad.py:293-306 | a clean or missing tab passes without a prompt; Cancel stops and changes nothing; Discard passes; Save passes exactly when the save succeeds; the recent list changes only through the save a Save answer makes |
| `Saving.RemoveTab` | pyqt_notepad.py:282 | removes exactly the given index, shifting later tabs down by one, and keeps the focus on the same tab, at its shifted index, unless that tab was removed; removing the current tab selects its right neighbour, or the new last tab |
| `Saving.CloseTab` | pyqt_notepad.py:279-287 | the tab is closed exactly when the gate passes, and with Save exactly when `SaveFile` succeeds; on a refusal no tab is removed, and Cancel leaves the whole window unchanged; a close removes exactly that index; the window is asked to close exactly when no tab is left; the recent list changes only through the save a Save answer makes |
| `Saving.CloseCleanTabIgnoresAnswer` | pyqt_notepad.py:293-295 | closing an unmodified tab gives the same result for every prompt answer, namely plain removal of that tab |
| `Saving.CloseOnlyCleanTabClosesWindow` | pyqt_notepad.py:279-284 | closing the only tab, when it is clean, succeeds and asks the window to close |
| `Saving.RecentAfterSaves` | pyqt_notepad.py:270-274 | the recent list after saving tabs in index order is duplicate-free and within 10 entries when the starting list is, and is unchanged when none of the visited tabs is modified |
| `Saving.SaveAll` | pyqt_notepad.py:270-274 | clean tabs are untouched; each modified tab is saved with its own input and ends clean exactly when its save succeeds; a failure does not stop the other tabs; texts, tab count and focus are unchanged; the recent list is the result of recording each save in index order, so it stays duplicate-free and within 10 entries, and it is unchanged when no tab is modified |
| `Session.Snapshot` | pyqt_notepad.py:403-412 | at most one entry per tab; each entry is either a truthy path with no content or a null path with non-empty content; the snapshot is empty exactly when every tab is blank and unbound |
| `Session.SnapshotConcat` | pyqt_notepad.py:405-412 | the snapshot of two runs of tabs is the concatenation of their snapshots, so entries follow tab order |
| `Session.SnapshotHasBoundTab` | pyqt_notepad.py:411-412 | every tab bound to a truthy path contributes a `{file_path}` entry |
| `Session.ReplayItem` | pyqt_notepad.py:437-441 | an entry with a truthy path goes through `open_file`: an unreadable file changes nothing, a readable one ends focused in a tab bound to that path; otherwise an entry with content appends one clean unbound tab holding that content (for content that `toPlainText()` returns unchanged), and an entry with neither is skipped; each entry adds at most one tab and removes none |
| `Session.Replay` | pyqt_notepad.py:437-441 | replays the entries in order; tabs are never removed and each entry adds at most one |
| `Session.RestoreSession` | pyqt_notepad.py:426-443 | a missing session, a corrupt one, or an empty decoded list each gives exactly one blank tab, which is current, and keeps the recent list; a non-empty list is replayed into the empty window and yields at most one tab per entry |
| `Session.ReplayExtendsSnapshot` | pyqt_notepad.py:437-441 | replaying well-formed entries whose files are distinct, not yet open and readable appends exactly those entries, in order, to the window's snapshot (inline contents for content that `toPlainText()` returns unchanged) |
| `Session.SnapshotRestoreRoundTrip` | pyqt_notepad.py:403-443 | restoring a snapshot whose files are distinct and readable gives a window whose snapshot is the same: the same bound paths and, for content that `toPlainText()` returns unchanged, the same inline contents, in the same order |
| `Session.RestoreCanLeaveNoTab` | pyqt_notepad.py:431-441 | every stored session whose only entry names a non-empty, unreadable file, whatever its content field, restores a window with no tab |
| `Search.FindText` | pyqt_notepad.py:338-353 | the query is remembered even when no tab is open; tabs, focus and recent list are unchanged; a search is issued exactly when a tab exists, and it starts from the document start exactly when it is not a find-next |
| `Search.FindNext` | pyqt_notepad.py:357-359 | never changes the window; with no remembered query it does nothing; otherwise it repeats the remembered query forward from the cursor |
| `Search.FindPrev` | pyqt_notepad.py:361-363 | never changes the window; with no remembered query it does nothing; otherwise it repeats the remembered query backward from the cursor |
| `Search.FindThenNextContinues` | pyqt_notepad.py:338-363 | after a fresh search for a non-empty query, Find Next and Find Previous continue that query from the cursor instead of restarting at the top |
| `Lifecycle.CloseWindow` | pyqt_notepad.py:445-450 | "Close Window" stores the geometry and exactly the session snapshot of the tabs (lines 403-416), with at most one entry per tab, empty exactly when every tab is blank and unbound |
| `Lifecycle.CloseWindowRestores` | pyqt_notepad.py:403-450 | restoring the session that "Close Window" stored gives back the same bound files and, for content that `toPlainText()` returns unchanged, the same inline contents, in tab order, when the files are distinct and readable |
| `Lifecycle.ExitSweep` | pyqt_notepad.py:452-463 | the exit succeeds exactly when every tab passes its close gate, and then no tab is left and the session and geometry keys are removed; otherwise it stops at the highest refusing index; all higher tabs are gone, all lower tabs are untouched, and the store is unchanged; after a Cancel the refusing tab is untouched too; the recent list is the result of recording, from the last tab down, the save made by each gate that ran, the refusing one included, so it stays duplicate-free and within 10 entries |
| `Lifecycle.SweepRecent` | pyqt_notepad.py:452-458 | the recent list after the close gates from the last tab down is duplicate-free and within 10 entries when the starting list is, and is unchanged when no visited gate saves a modified tab |

## Left out

- Tabs.OpenFile: the text of the opened tab is the file's content only for content that `toPlainText()` returns unchanged after `setText`. HTML-looking content is turned into rich text by `QTextEdit.setText`, and `toPlainText` changes U+00A0 (to a space) and U+2028, U+2029, U+FDD0 and U+FDD1 (to a line feed). Such content is not modelled.
- Session.SnapshotRestoreRoundTrip: inline contents come back unchanged only for content that `toPlainText()` returns unchanged after `setText`, for the same reason.
- Qt widgets, menus, the `FindDialog` layout, zoom, undo, cut, copy, paste and
  the clipboard: these are presentation glue over library calls.
- The text matching of `find_text` (line 353) and the "Cannot find" message:
  the match is computed by `QTextEdit.find`, whose behaviour is not part of
  this model. `Search.FindText` returns the search request handed to it.
- The re-entrant `self.close()` that `close_tab` makes when the last tab goes
  (line 284): its effect depends on Qt's close-event handling. `CloseTab`
  returns a `closeWindow` flag instead.
- `QSettings` persistence, JSON encoding and decoding, and geometry restore.
  A stored session is already decoded (`StoredSession`). Entries are typed:
  a path is a string or null, and content is a string.
  Ill-typed entries are not modelled. Such entries make `item.get` raise an
  uncaught `AttributeError`, or make `setText` raise a `TypeError` after some
  tabs were already restored.
- `clear_recent_files`, `open_recent_file`, `new_window` and the
  `Application` class: these are menu plumbing around the modelled
  operations.
- The window's default index for `save_file()` and `save_as_file()`: the model
  always takes the index explicitly. The `triggered` signal's `checked`
  argument, which PyQt may pass as the index, is not modelled.
- Display names: tab titles, "Untitled" and basenames.
- Error message boxes: they report failures and change no state.
- `youtube_downloader.py` and `youtube_downloader_gui.py`: they are network
  download wrappers with no bookkeeping logic.

=== FILE: common.dfy ===
/** Small shared vocabulary: optional values, Python truthiness of optional
    strings, and duplicate-freedom of sequences. */
module Common {

  /** The conventional Some/None datatype, used for "no file bound" and for
      absent keys of decoded session items. */
  datatype Option<T> = None | Some(value: T)

  /** Python truthiness of an optional string: both `None` and `""` are false. */
  predicate Truthy(o: Option<string>) {
    o.Some? && o.value != ""
  }

  /** No value occurs at two different positions. */
  predicate NoDuplicates<T(==)>(s: seq<T>) {
    forall i, j :: 0 <= i < j < |s| ==> s[i] != s[j]
  }
}

=== FILE: lifecycle.dfy ===
/** Closing a window (`closeEvent`): "Close Window" stores the session and
    geometry without prompting, a full exit sweeps the tabs from last to first
    through the close gate and clears the stored session only when every tab
    closed. */
module Lifecycle {
  import opened Common
  import opened RecentFiles
  import opened Tabs
  import opened Saving
  import opened Session

  /** The opaque serialised window geometry. */
  type Geometry = seq<bv8>

  /** The settings keys the window lifecycle writes: `session` and
      `geometry`. */
  datatype Store = Store(session: StoredSession, geometry: Option<Geometry>)

  /** The store after a confirmed exit: both keys removed. */
  function Cleared(): Store {
    Store(NoSession, None)
  }

  /** "Close Window": write the snapshot of the tabs and the geometry; no tab
      is prompted for. Restoring the result later shows the tab list again. */
  function CloseWindow(w: Window, geometry: Geometry): (s: Store)
    ensures s.geometry == Some(geometry)
    ensures s.session == Decoded(Snapshot(w.tabs))
    ensures |s.session.items| <= |w.tabs|
    ensures (forall j :: 0 <= j < |w.tabs| ==> Reusable(w.tabs[j])) <==> s.session.items == []
  {
    Store(Decoded(Snapshot(w.tabs)), Some(geometry))
  }

  /** Closing a window and restoring its stored session later gives back the
      same bound files and inline contents, in tab order, when the files are
      distinct and still readable. */
  lemma CloseWindowRestores(w: Window, geometry: Geometry, recent: seq<string>, fs: FileSystem)
    requires DistinctPaths(Snapshot(w.tabs)) && Readable(Snapshot(w.tabs), fs)
    ensures Snapshot(RestoreSession(CloseWindow(w, geometry).session, recent, fs).tabs) == Snapshot(w.tabs)
  {
    SnapshotRestoreRoundTrip(w.tabs, recent, fs);
  }

  /** The recent list after the close gates of tabs `|tabs| - 1` down to
      `i + 1` have run, in that order. */
  function SweepRecent(recent: seq<string>, tabs: seq<Tab>, inputs: seq<CloseInput>, i: int): (r: seq<string>)
    requires |inputs| == |tabs| && -1 <= i < |tabs|
    ensures NoDuplicates(recent) ==> NoDuplicates(r)
    ensures |recent| <= MaxRecent ==> |r| <= MaxRecent
    ensures (forall j :: i < j < |tabs| ==> !tabs[j].modified || inputs[j].answer != Save) ==> r == recent
    decreases |tabs| - i
  {
    if i == |tabs| - 1 then recent
    else GateRecent(SweepRecent(recent, tabs, inputs, i + 1), tabs[i + 1], inputs[i + 1])
  }

  /** The sweep's state before closing tab `i`: the tabs above it are gone,
      the rest are untouched, and every tab above it passed its gate. */
  predicate SweptAbove(w: Window, inputs: seq<CloseInput>, r: Window, i: int) {
    && |inputs| == |w.tabs|
    && -1 <= i < |w.tabs|
    && WellFormed(r)
    && r.tabs == w.tabs[..i + 1]
    && (forall j :: i < j < |w.tabs| ==> Closes(w.tabs[j], inputs[j]))
    && r.recent == SweepRecent(w.recent, w.tabs, inputs, i)
  }

  /** Closing tab `i` when its gate passes moves the sweep down one index. */
  lemma SweepStepCloses(w: Window, inputs: seq<CloseInput>, r: Window, i: int)
    requires SweptAbove(w, inputs, r, i) && 0 <= i && CloseTab(r, i, inputs[i]).closed
    ensures SweptAbove(w, inputs, CloseTab(r, i, inputs[i]).window, i - 1)
  {
    var c := CloseTab(r, i, inputs[i]);
    assert r.tabs[i] == w.tabs[i];
    assert Closes(w.tabs[i], inputs[i]);
    forall j | 0 <= j < i
      ensures c.window.tabs[j] == w.tabs[j]
    {
      assert Skip(j, i) == j;
    }
    assert c.window.tabs == w.tabs[..i];
    assert c.window.recent == GateRecent(SweepRecent(w.recent, w.tabs, inputs, i), w.tabs[i], inputs[i]);
  }

  /** When the gate of tab `i` refuses, the sweep ends there: the tabs above
      are gone, the tabs below are untouched, the refusing tab keeps its text,
      and after Cancel it is untouched as well. */
  lemma SweepStepRefuses(w: Window, inputs: seq<CloseInput>, r: Window, i: int)
    requires SweptAbove(w, inputs, r, i) && 0 <= i && !CloseTab(r, i, inputs[i]).closed
    ensures WellFormed(CloseTab(r, i, inputs[i]).window)
    ensures !Closes(w.tabs[i], inputs[i])
    ensures |CloseTab(r, i, inputs[i]).window.tabs| == i + 1
    ensures CloseTab(r, i, inputs[i]).window.tabs[..i] == w.tabs[..i]
    ensures CloseTab(r, i, inputs[i]).window.tabs[i].text == w.tabs[i].text
    ensures inputs[i].answer == Cancel ==> CloseTab(r, i, inputs[i]).window.tabs == w.tabs[..i + 1]
    ensures CloseTab(r, i, inputs[i]).window.recent == SweepRecent(w.recent, w.tabs, inputs, i - 1)
  {
    var t := CloseTab(r, i, inputs[i]).window.tabs;
    assert r.tabs[i] == w.tabs[i];
    assert forall j :: 0 <= j < i ==> t[j] == w.tabs[j];
  }

  /** Full exit: close tabs from index `|tabs| - 1` down to 0, one close-gate
      answer per tab, stopping at the first refusal. On success every tab is
      gone and the stored session and geometry are removed; on a refusal at
      `stoppedAt` every higher tab is gone, every lower tab is untouched, and
      the store is unchanged. Every gate that ran, the refusing one included,
      leaves its save in the recent list. */
  method ExitSweep(w: Window, store: Store, inputs: seq<CloseInput>)
    returns (r: Window, store': Store, accepted: bool, stoppedAt: int)
    requires WellFormed(w) && |inputs| == |w.tabs|
    ensures WellFormed(r)
    ensures accepted <==> forall j :: 0 <= j < |w.tabs| ==> Closes(w.tabs[j], inputs[j])
    ensures accepted ==> r.tabs == [] && store' == Cleared() && stoppedAt == -1
    ensures !accepted ==>
      && 0 <= stoppedAt < |w.tabs|
      && !Closes(w.tabs[stoppedAt], inputs[stoppedAt])
      && (forall j :: stoppedAt < j < |w.tabs| ==> Closes(w.tabs[j], inputs[j]))
      && |r.tabs| == stoppedAt + 1
      && r.tabs[..stoppedAt] == w.tabs[..stoppedAt]
      && r.tabs[stoppedAt].text == w.tabs[stoppedAt].text
      && store' == store
    ensures !accepted && inputs[stoppedAt].answer == Cancel ==> r.tabs == w.tabs[..stoppedAt + 1]
    ensures r.recent == SweepRecent(w.recent, w.tabs, inputs, if accepted then -1 else stoppedAt - 1)
    ensures NoDuplicates(w.recent) ==> NoDuplicates(r.recent)
    ensures |w.recent| <= MaxRecent ==> |r.recent| <= MaxRecent
  {
    r := w;
    var i := |w.tabs| - 1;
    while i >= 0
      invariant SweptAbove(w, inputs, r, i)
    {
      var c := CloseTab(r, i, inputs[i]);
      if !c.closed {
        SweepStepRefuses(w, inputs, r, i);
        return c.window, store, false, i;
      }
      SweepStepCloses(w, inputs, r, i);
      r := c.window;
      i := i - 1;
    }
    return r, Cleared(), true, -1;
  }
}

=== FILE: recent_files.dfy ===
/** The bounded most-recently-used list of file paths kept under the
    `recentFiles` settings key (`Notepad.add_to_recent_files`). */
module RecentFiles {
  import opened Common

  /** The list keeps at most this many paths (the slice `[:10]`). */
  const MaxRecent: nat := 10

  function Min(a: int, b: int): int {
    if a < b then a else b
  }

  /** Position `i` of a list after the element at position `k` was taken out
      corresponds to this position of the original list. */
  function Skip(i: nat, k: nat): nat {
    if i < k then i else i + 1
  }

  /** Index of the first occurrence of `x`, or `|s|` when there is none. */
  function IndexOf(s: seq<string>, x: string): (k: nat)
    ensures k <= |s|
    ensures k < |s| ==> s[k] == x
    ensures forall j :: 0 <= j < k ==> s[j] != x
    ensures k == |s| <==> x !in s
    decreases |s|
  {
    if |s| == 0 || s[0] == x then 0 else 1 + IndexOf(s[1..], x)
  }

  /** Python's `list.remove(x)` guarded by `x in list`: only the FIRST
      occurrence is taken out, every other element keeps its relative order. */
  function RemoveFirst(s: seq<string>, x: string): (r: seq<string>)
    ensures x !in s ==> r == s
    ensures x in s ==> |r| == |s| - 1 && multiset(r) == multiset(s) - multiset{x}
    ensures forall i :: 0 <= i < |r| ==> r[i] == s[Skip(i, IndexOf(s, x))]
  {
    var k := IndexOf(s, x);
    if k < |s| then
      RemoveAtMultiset(s, k);
      s[..k] + s[k + 1..]
    else s
  }

  /** Taking out position `k` takes exactly one copy of `s[k]` out of the
      multiset of elements. */
  lemma RemoveAtMultiset(s: seq<string>, k: nat)
    requires k < |s|
    ensures multiset(s[..k] + s[k + 1..]) == multiset(s) - multiset{s[k]}
  {
    assert s == s[..k] + [s[k]] + s[k + 1..];
  }

  /** Move `path` to the front of the recent list, dropping its previous
      occurrence, and keep only the first `MaxRecent` entries. */
  function AddToRecent(recent: seq<string>, path: string): (r: seq<string>)
    ensures 0 < |r| <= MaxRecent
    ensures r[0] == path
    ensures |r| == Min(MaxRecent, if path in recent then |recent| else |recent| + 1)
    ensures forall i :: 1 <= i < |r| ==> r[i] == recent[Skip(i - 1, IndexOf(recent, path))]
    ensures NoDuplicates(recent) ==> NoDuplicates(r)
  {
    var moved := [path] + RemoveFirst(recent, path);
    var r := if |moved| <= MaxRecent then moved else moved[..MaxRecent];
    KeepsDistinct(recent, path, r);
    r
  }

  /** The path followed by other entries taken, in order, from positions of a
      duplicate-free list other than the path's has no duplicates. */
  lemma KeepsDistinct(recent: seq<string>, path: string, r: seq<string>)
    requires 0 < |r| && r[0] == path
    requires |r| <= |RemoveFirst(recent, path)| + 1
    requires forall i :: 1 <= i < |r| ==> r[i] == recent[Skip(i - 1, IndexOf(recent, path))]
    ensures NoDuplicates(recent) ==> NoDuplicates(r)
  {
    if NoDuplicates(recent) {
      var k := IndexOf(recent, path);
      forall i, j | 0 <= i < j < |r|
        ensures r[i] != r[j]
      {
        if i == 0 {
          var pj := Skip(j - 1, k);
          assert r[j] == recent[pj] && pj != k;
          if k < |recent| {
            assert recent[pj] != recent[k];
          }
        } else {
          assert Skip(i - 1, k) < Skip(j - 1, k);
        }
      }
    }
  }

  /** Adding a path twice gives the same list as adding it once, which is why
      the double update in `open_file` and `save_as_file` is harmless. */
  lemma AddToRecentIdempotent(recent: seq<string>, path: string)
    ensures AddToRecent(AddToRecent(recent, path), path) == AddToRecent(recent, path)
  {
  }

  /** Adding an eleventh path to a full list evicts the oldest entry. */
  lemma AddToRecentEvictsOldest(recent: seq<string>, path: string)
    requires |recent| == MaxRecent && path !in recent
    ensures AddToRecent(recent, path) == [path] + recent[..MaxRecent - 1]
  {
  }

  /** Re-adding a path already in a duplicate-free list that fits in the bound
      only reorders it: no entry is lost and none is added. */
  lemma AddToRecentReorders(recent: seq<string>, path: string)
    requires path in recent && NoDuplicates(recent) && |recent| <= MaxRecent
    ensures multiset(AddToRecent(recent, path)) == multiset(recent)
  {
  }
}

=== FILE: saving.dfy ===
/** Saving documents and closing tabs: `save_file`, `save_as_file`,
    `save_all_files`, the `maybe_save` Save/Discard/Cancel gate and
    `close_tab`. Dialog answers and write outcomes are parameters. */
module Saving {
  import opened Common
  import opened RecentFiles
  import opened Tabs

  /** What the environment answers when a tab is saved: the path picked in the
      save dialog ("" when the dialog was cancelled; only consulted for an
      unbound tab) and whether writing the file succeeds. */
  datatype SaveInput = SaveInput(chosenPath: string, writeOk: bool)

  /** The buttons of the "document has been modified" prompt. */
  datatype Answer = Save | Discard | Cancel

  /** The prompt answer for one tab together with the outcome of the save it
      may trigger. */
  datatype CloseInput = CloseInput(answer: Answer, save: SaveInput)

  /** A new window state and the boolean that `save_file`, `save_as_file` or
      `maybe_save` returns. */
  datatype SaveResult = SaveResult(window: Window, ok: bool)

  /** The window state after `close_tab`, whether the tab was closed, and
      whether the window is asked to close because no tab is left. */
  datatype CloseResult = CloseResult(window: Window, closed: bool, closeWindow: bool)

  /** Saving tab `t` succeeds: a bound tab needs a successful write, an unbound
      one a path from the dialog and then a successful write. */
  predicate SaveSucceeds(t: Tab, inp: SaveInput) {
    if t.path.None? then inp.chosenPath != "" && inp.writeOk else inp.writeOk
  }

  /** The file a tab is bound to after a save attempt: the save dialog binds an
      unbound tab before the write is tried, so even a failed write leaves the
      new binding behind. */
  function PathAfterSave(t: Tab, inp: SaveInput): Option<string> {
    if t.path.None? && inp.chosenPath != "" then Some(inp.chosenPath) else t.path
  }

  /** Whether the save attempt touches the recent list: on a successful write,
      and when the save dialog binds a path. */
  predicate SaveRecordsRecent(t: Tab, inp: SaveInput) {
    if t.path.None? then inp.chosenPath != "" else inp.writeOk
  }

  /** The recent list after a save attempt on tab `t`: a modified tab whose
      save records its path moves that path to the front; otherwise the list
      stays as it was. */
  function RecordSave(recent: seq<string>, t: Tab, inp: SaveInput): (r: seq<string>)
    ensures NoDuplicates(recent) ==> NoDuplicates(r)
    ensures |recent| <= MaxRecent ==> |r| <= MaxRecent
    ensures t.modified && SaveRecordsRecent(t, inp) ==> 0 < |r| && Some(r[0]) == PathAfterSave(t, inp)
    ensures !(t.modified && SaveRecordsRecent(t, inp)) ==> r == recent
  {
    if t.modified && SaveRecordsRecent(t, inp) then AddToRecent(recent, PathAfterSave(t, inp).value)
    else recent
  }

  /** The recent list after the close gate of tab `t`: only a Save answer
      can save, and so record, the tab. */
  function GateRecent(recent: seq<string>, t: Tab, ci: CloseInput): seq<string> {
    if ci.answer == Save then RecordSave(recent, t, ci.save) else recent
  }

  /** The close gate lets tab `t` go: it is clean, or the user discards, or the
      user saves and the save succeeds. */
  predicate Closes(t: Tab, ci: CloseInput) {
    !t.modified || ci.answer == Discard || (ci.answer == Save && SaveSucceeds(t, ci.save))
  }

  /** The shared contract of every single-tab save: only tab `i` and the recent
      list may change; the text stays; success clears the modified flag and
      failure keeps it. */
  predicate SavedTab(w: Window, i: int, r: SaveResult) {
    && 0 <= i < |w.tabs|
    && |r.window.tabs| == |w.tabs|
    && r.window.current == w.current
    && r.window.lastSearch == w.lastSearch
    && (forall j :: 0 <= j < |w.tabs| && j != i ==> r.window.tabs[j] == w.tabs[j])
    && r.window.tabs[i].text == w.tabs[i].text
    && (r.ok ==> !r.window.tabs[i].modified)
    && (!r.ok ==> r.window.tabs[i].modified == w.tabs[i].modified)
  }

  /** Write tab `i` to the file it is bound to (the bound branch of
      `save_file`). */
  function WriteTab(w: Window, i: int, writeOk: bool): (r: SaveResult)
    requires 0 <= i < |w.tabs| && w.tabs[i].path.Some?
    ensures SavedTab(w, i, r)
    ensures r.ok == writeOk
    ensures r.window.tabs[i].path == w.tabs[i].path
    ensures r.window.recent == if writeOk then AddToRecent(w.recent, w.tabs[i].path.value) else w.recent
  {
    if writeOk then
      SaveResult(w.(tabs := w.tabs[i := w.tabs[i].(modified := false)],
                    recent := AddToRecent(w.recent, w.tabs[i].path.value)), true)
    else SaveResult(w, false)
  }

  /** `save_as_file`: ask for a path, bind the tab to it, then write. A
      cancelled dialog or a missing tab changes nothing and fails. */
  function SaveAsFile(w: Window, i: int, inp: SaveInput): (r: SaveResult)
    ensures !(0 <= i < |w.tabs|) || inp.chosenPath == "" ==> r == SaveResult(w, false)
    ensures 0 <= i < |w.tabs| && inp.chosenPath != "" ==>
      && SavedTab(w, i, r)
      && r.ok == inp.writeOk
      && r.window.tabs[i].path == Some(inp.chosenPath)
      && r.window.recent == AddToRecent(w.recent, inp.chosenPath)
  {
    if !(0 <= i < |w.tabs|) || inp.chosenPath == "" then SaveResult(w, false)
    else
      var bound := SetTabFilePath(w, i, inp.chosenPath);
      AddToRecentIdempotent(w.recent, inp.chosenPath);
      WriteTab(bound, i, inp.writeOk)
  }

  /** `save_file`: a bound tab is written in place, an unbound one goes
      through Save As. A missing tab fails. */
  function SaveFile(w: Window, i: int, inp: SaveInput): (r: SaveResult)
    ensures r.ok <==> 0 <= i < |w.tabs| && SaveSucceeds(w.tabs[i], inp)
    ensures !(0 <= i < |w.tabs|) ==> r.window == w
    ensures 0 <= i < |w.tabs| ==>
      && SavedTab(w, i, r)
      && r.window.tabs[i].path == PathAfterSave(w.tabs[i], inp)
      && r.window.recent ==
           (if SaveRecordsRecent(w.tabs[i], inp) then AddToRecent(w.recent, r.window.tabs[i].path.value)
            else w.recent)
  {
    if !(0 <= i < |w.tabs|) then SaveResult(w, false)
    else if w.tabs[i].path.None? then SaveAsFile(w, i, inp)
    else WriteTab(w, i, inp.writeOk)
  }

  /** `maybe_save`: a clean (or missing) tab passes without a prompt; otherwise
      Save passes exactly when the save succeeds, Discard passes, Cancel stops
      and changes nothing. */
  function MaybeSave(w: Window, i: int, ci: CloseInput): (r: SaveResult)
    ensures r.ok <==> !(0 <= i < |w.tabs|) || Closes(w.tabs[i], ci)
    ensures !(0 <= i < |w.tabs|) || !w.tabs[i].modified || ci.answer != Save ==> r.window == w
    ensures 0 <= i < |w.tabs| ==> SavedTab(w, i, r) || r.window == w
    ensures 0 <= i < |w.tabs| ==> r.window.recent == GateRecent(w.recent, w.tabs[i], ci)
  {
    if !(0 <= i < |w.tabs|) || !w.tabs[i].modified then SaveResult(w, true)
    else
      match ci.answer
      case Save => SaveFile(w, i, ci.save)
      case Cancel => SaveResult(w, false)
      case Discard => SaveResult(w, true)
  }

  /** Remove tab `i`. The selection follows the tab widget's default policy:
      a tab before the current one shifts it left, removing the current tab
      selects its right neighbour (or the new last tab). */
  function RemoveTab(w: Window, i: int): (r: Window)
    requires WellFormed(w) && 0 <= i < |w.tabs|
    ensures WellFormed(r)
    ensures |r.tabs| == |w.tabs| - 1
    ensures forall j :: 0 <= j < |r.tabs| ==> r.tabs[j] == w.tabs[Skip(j, i)]
    ensures w.current != i ==> r.current == (if i < w.current then w.current - 1 else w.current)
    ensures w.current != i ==> r.tabs[r.current] == w.tabs[w.current]
    ensures w.current == i && |r.tabs| > 0 ==> r.current == Min(i, |r.tabs| - 1)
    ensures r.recent == w.recent && r.lastSearch == w.lastSearch
  {
    var tabs := w.tabs[..i] + w.tabs[i + 1..];
    var cur :=
      if |tabs| == 0 then -1
      else if i < w.current then w.current - 1
      else if i == w.current then Min(i, |tabs| - 1)
      else w.current;
    w.(tabs := tabs, current := cur)
  }

  /** `close_tab`: run the gate, then remove exactly tab `i`; when the last tab
      goes, the window is asked to close. A refused gate keeps every tab (a
      failed Save As may still have bound tab `i` to the chosen path). */
  function CloseTab(w: Window, i: int, ci: CloseInput): (r: CloseResult)
    requires WellFormed(w)
    ensures WellFormed(r.window)
    ensures r.closed <==> !(0 <= i < |w.tabs|) || Closes(w.tabs[i], ci)
    ensures !(0 <= i < |w.tabs|) ==> r.window == w
    ensures !r.closed ==>
      && !r.closeWindow
      && |r.window.tabs| == |w.tabs|
      && (forall j :: 0 <= j < |w.tabs| && j != i ==> r.window.tabs[j] == w.tabs[j])
      && r.window.tabs[i].text == w.tabs[i].text
      && r.window.tabs[i].modified
    ensures !r.closed && ci.answer == Cancel ==> r.window == w
    ensures r.closed && 0 <= i < |w.tabs| ==>
      && |r.window.tabs| == |w.tabs| - 1
      && (forall j :: 0 <= j < |r.window.tabs| ==> r.window.tabs[j] == w.tabs[Skip(j, i)])
    ensures r.closeWindow <==> r.closed && |r.window.tabs| == 0
    ensures 0 <= i < |w.tabs| ==> r.window.recent == GateRecent(w.recent, w.tabs[i], ci)
    ensures 0 <= i < |w.tabs| && w.tabs[i].modified && ci.answer == Save ==>
      (r.closed <==> SaveFile(w, i, ci.save).ok)
  {
    var m := MaybeSave(w, i, ci);
    if !m.ok then CloseResult(m.window, false, false)
    else
      var w1 := if 0 <= i < |m.window.tabs| then RemoveTab(m.window, i) else m.window;
      CloseResult(w1, true, |w1.tabs| == 0)
  }

  /** Closing a clean tab never consults the prompt: every answer gives the
      same result, and the tab simply disappears. */
  lemma CloseCleanTabIgnoresAnswer(w: Window, i: int, ci: CloseInput, other: CloseInput)
    requires WellFormed(w) && 0 <= i < |w.tabs| && !w.tabs[i].modified
    ensures CloseTab(w, i, ci) == CloseTab(w, i, other)
    ensures CloseTab(w, i, ci).window == RemoveTab(w, i)
  {
  }

  /** Closing the only tab, when it is clean, empties the window and asks it to
      close. */
  lemma CloseOnlyCleanTabClosesWindow(w: Window, ci: CloseInput)
    requires WellFormed(w) && |w.tabs| == 1 && !w.tabs[0].modified
    ensures CloseTab(w, 0, ci).closed && CloseTab(w, 0, ci).closeWindow
  {
  }

  /** The recent list after `save_all_files` has visited tabs `0` to `n - 1`:
      each recorded save moves its path to the front, in index order. */
  function RecentAfterSaves(recent: seq<string>, tabs: seq<Tab>, inputs: seq<SaveInput>, n: int): (r: seq<string>)
    requires |inputs| == |tabs| && 0 <= n <= |tabs|
    ensures NoDuplicates(recent) ==> NoDuplicates(r)
    ensures |recent| <= MaxRecent ==> |r| <= MaxRecent
    ensures (forall j :: 0 <= j < n ==> !tabs[j].modified) ==> r == recent
    decreases n
  {
    if n == 0 then recent
    else RecordSave(RecentAfterSaves(recent, tabs, inputs, n - 1), tabs[n - 1], inputs[n - 1])
  }

  /** What `save_all_files` does to one tab: the text stays; a clean tab is
      untouched; a modified tab ends clean exactly when its save succeeds and
      ends bound as the save left it. */
  predicate SavedEntry(t: Tab, inp: SaveInput, t': Tab) {
    && t'.text == t.text
    && (!t.modified ==> t' == t)
    && (t.modified ==> (t'.modified <==> !SaveSucceeds(t, inp)) && t'.path == PathAfterSave(t, inp))
  }

  /** The loop state of `save_all_files` before index `i`: tabs below `i` are
      processed, the others untouched, and the shape of the window kept. */
  predicate SavedBelow(w: Window, inputs: seq<SaveInput>, r: Window, i: int) {
    && |inputs| == |w.tabs|
    && 0 <= i <= |w.tabs|
    && WellFormed(r)
    && |r.tabs| == |w.tabs| && r.current == w.current && r.lastSearch == w.lastSearch
    && (forall j :: 0 <= j < i ==> SavedEntry(w.tabs[j], inputs[j], r.tabs[j]))
    && (forall j :: i <= j < |w.tabs| ==> r.tabs[j] == w.tabs[j])
    && r.recent == RecentAfterSaves(w.recent, w.tabs, inputs, i)
  }

  /** One iteration of `save_all_files`: save tab `i` when it is modified. */
  function SaveAllStep(r: Window, i: int, inp: SaveInput): Window {
    if 0 <= i < |r.tabs| && r.tabs[i].modified then SaveFile(r, i, inp).window else r
  }

  /** Before the first iteration nothing is processed. */
  lemma SaveAllStarts(w: Window, inputs: seq<SaveInput>)
    requires WellFormed(w) && |inputs| == |w.tabs|
    ensures SavedBelow(w, inputs, w, 0)
  {
  }

  /** One iteration moves the processed boundary up by one tab. */
  lemma SaveAllStepAdvances(w: Window, inputs: seq<SaveInput>, r: Window, i: int)
    requires SavedBelow(w, inputs, r, i) && i < |w.tabs|
    ensures SavedBelow(w, inputs, SaveAllStep(r, i, inputs[i]), i + 1)
  {
    var r' := SaveAllStep(r, i, inputs[i]);
    assert r.tabs[i] == w.tabs[i];
    assert SavedEntry(w.tabs[i], inputs[i], r'.tabs[i]);
    assert forall j :: 0 <= j < |w.tabs| && j != i ==> r'.tabs[j] == r.tabs[j];
  }

  /** Once every tab is processed, the loop state gives each promise of
      `save_all_files`. */
  lemma SavedAllTabs(w: Window, inputs: seq<SaveInput>, r: Window)
    requires SavedBelow(w, inputs, r, |w.tabs|)
    ensures WellFormed(r)
    ensures |r.tabs| == |w.tabs| && r.current == w.current && r.lastSearch == w.lastSearch
    ensures forall j :: 0 <= j < |w.tabs| ==> r.tabs[j].text == w.tabs[j].text
    ensures forall j :: 0 <= j < |w.tabs| && !w.tabs[j].modified ==> r.tabs[j] == w.tabs[j]
    ensures forall j :: 0 <= j < |w.tabs| && w.tabs[j].modified ==>
      && (r.tabs[j].modified <==> !SaveSucceeds(w.tabs[j], inputs[j]))
      && r.tabs[j].path == PathAfterSave(w.tabs[j], inputs[j])
    ensures r.recent == RecentAfterSaves(w.recent, w.tabs, inputs, |w.tabs|)
    ensures NoDuplicates(w.recent) ==> NoDuplicates(r.recent)
    ensures |w.recent| <= MaxRecent ==> |r.recent| <= MaxRecent
    ensures (forall j :: 0 <= j < |w.tabs| ==> !w.tabs[j].modified) ==> r.recent == w.recent
  {
    assert forall j :: 0 <= j < |w.tabs| ==> SavedEntry(w.tabs[j], inputs[j], r.tabs[j]);
  }

  /** `save_all_files`: save every modified tab in index order; a failed save
      does not stop the rest, and clean tabs are not touched. */
  method SaveAll(w: Window, inputs: seq<SaveInput>) returns (r: Window)
    requires WellFormed(w) && |inputs| == |w.tabs|
    ensures WellFormed(r)
    ensures |r.tabs| == |w.tabs| && r.current == w.current && r.lastSearch == w.lastSearch
    ensures forall j :: 0 <= j < |w.tabs| ==> r.tabs[j].text == w.tabs[j].text
    ensures forall j :: 0 <= j < |w.tabs| && !w.tabs[j].modified ==> r.tabs[j] == w.tabs[j]
    ensures forall j :: 0 <= j < |w.tabs| && w.tabs[j].modified ==>
      && (r.tabs[j].modified <==> !SaveSucceeds(w.tabs[j], inputs[j]))
      && r.tabs[j].path == PathAfterSave(w.tabs[j], inputs[j])
    ensures r.recent == RecentAfterSaves(w.recent, w.tabs, inputs, |w.tabs|)
    ensures NoDuplicates(w.recent) ==> NoDuplicates(r.recent)
    ensures |w.recent| <= MaxRecent ==> |r.recent| <= MaxRecent
    ensures (forall j :: 0 <= j < |w.tabs| ==> !w.tabs[j].modified) ==> r.recent == w.recent
  {
    r := w;
    var i := 0;
    SaveAllStarts(w, inputs);
    while i < |w.tabs|
      invariant SavedBelow(w, inputs, r, i)
    {
      SaveAllStepAdvances(w, inputs, r, i);
      r := SaveAllStep(r, i, inputs[i]);
      i := i + 1;
    }
    assert i == |w.tabs|;
    SavedAllTabs(w, inputs, r);
  }
}

=== FILE: search.dfy ===
/** The find bookkeeping of the window (`find_text`, `find_next`,
    `find_prev`). The text matching is delegated to the editor widget; the
    model records the query and the search request handed to it. */
module Search {
  import opened Common
  import opened Tabs

  /** The search handed to the editor: the query, its direction, and whether
      the cursor was first moved to the start of the document. */
  datatype FindRequest = FindRequest(query: string, backward: bool, fromStart: bool)

  /** The window after the call and the request issued, if any. */
  datatype FindResult = FindResult(window: Window, request: Option<FindRequest>)

  /** `find_text`: remember the query, then (when a tab is open) search from
      the document start for a fresh search, or from the cursor for
      find-next/find-previous. */
  function FindText(w: Window, text: string, findNext: bool, backward: bool): (r: FindResult)
    requires WellFormed(w)
    ensures r.window.lastSearch == text
    ensures r.window.tabs == w.tabs && r.window.current == w.current && r.window.recent == w.recent
    ensures r.request.Some? <==> |w.tabs| > 0
    ensures r.request.Some? ==>
      r.request.value.query == text && r.request.value.backward == backward && r.request.value.fromStart == !findNext
  {
    var w1 := w.(lastSearch := text);
    if |w.tabs| == 0 then FindResult(w1, None)
    else FindResult(w1, Some(FindRequest(text, backward, !findNext)))
  }

  /** `find_next`: repeat the remembered query forward from the cursor; a
      no-op when nothing was searched yet. The window state never changes. */
  function FindNext(w: Window): (r: FindResult)
    requires WellFormed(w)
    ensures r.window == w
    ensures w.lastSearch == "" ==> r.request == None
    ensures r.request.Some? <==> w.lastSearch != "" && |w.tabs| > 0
    ensures r.request.Some? ==> r.request.value == FindRequest(w.lastSearch, false, false)
  {
    if w.lastSearch != "" then FindText(w, w.lastSearch, true, false) else FindResult(w, None)
  }

  /** `find_prev`: as `FindNext`, searching backward. */
  function FindPrev(w: Window): (r: FindResult)
    requires WellFormed(w)
    ensures r.window == w
    ensures w.lastSearch == "" ==> r.request == None
    ensures r.request.Some? <==> w.lastSearch != "" && |w.tabs| > 0
    ensures r.request.Some? ==> r.request.value == FindRequest(w.lastSearch, true, false)
  {
    if w.lastSearch != "" then FindText(w, w.lastSearch, true, true) else FindResult(w, None)
  }

  /** After a fresh search for a non-empty query, Find Next and Find Previous
      continue that same query from the cursor instead of restarting at the
      top. */
  lemma FindThenNextContinues(w: Window, q: string)
    requires WellFormed(w) && |w.tabs| > 0 && q != ""
    ensures FindText(w, q, false, false).request == Some(FindRequest(q, false, true))
    ensures FindNext(FindText(w, q, false, false).window).request == Some(FindRequest(q, false, false))
    ensures FindPrev(FindText(w, q, false, false).window).request == Some(FindRequest(q, true, false))
  {
  }
}

=== FILE: session.dfy ===
/** The session protocol: `save_session` records the open tabs, and
    `restore_session` replays a stored session into a fresh window. The JSON
    text itself is not modelled; a stored session is already decoded. */
module Session {
  import opened Common
  import opened Tabs

  /** One decoded session entry: its `file_path` value (`None` for JSON null or
      a missing key) and its `content` value (`None` when the key is absent). */
  datatype Item = Item(filePath: Option<string>, content: Option<string>)

  /** The `session` settings value: missing (or an empty string), a value
      `json.loads` rejects or one that cannot be iterated (the `TypeError`
      that `restore_session` catches), or a decoded list of entries. A decoded
      falsy value other than a list (null, {}, 0) behaves like an empty list. */
  datatype StoredSession = NoSession | Corrupt | Decoded(items: seq<Item>)

  /** The two entry shapes `save_session` writes: `{file_path}` for a bound
      tab, `{file_path: None, content}` for an unbound tab with text. */
  predicate WellShaped(it: Item) {
    || (Truthy(it.filePath) && it.content.None?)
    || (it.filePath.None? && it.content.Some? && it.content.value != "")
  }

  /** The entry (if any) that `save_session` writes for one tab. */
  function EntryOf(t: Tab): seq<Item> {
    if !Truthy(t.path) && t.text != "" then [Item(None, Some(t.text))]
    else if Truthy(t.path) then [Item(t.path, None)]
    else []
  }

  /** `save_session`: one entry per tab, in tab order, skipping unbound empty
      tabs. */
  function Snapshot(tabs: seq<Tab>): (r: seq<Item>)
    ensures |r| <= |tabs|
    ensures forall k :: 0 <= k < |r| ==> WellShaped(r[k])
    ensures (forall j :: 0 <= j < |tabs| ==> Reusable(tabs[j])) <==> r == []
    decreases |tabs|
  {
    if |tabs| == 0 then []
    else Snapshot(tabs[..|tabs| - 1]) + EntryOf(tabs[|tabs| - 1])
  }

  /** The snapshot of two runs of tabs is the snapshot of the first followed
      by the snapshot of the second: entries keep the order of their tabs. */
  lemma {:induction false} SnapshotConcat(a: seq<Tab>, b: seq<Tab>)
    ensures Snapshot(a + b) == Snapshot(a) + Snapshot(b)
    decreases |b|
  {
    if |b| == 0 {
      assert a + b == a;
    } else {
      var n := |b| - 1;
      assert (a + b)[..|a + b| - 1] == a + b[..n];
      assert (a + b)[|a + b| - 1] == b[n];
      assert b[..|b| - 1] == b[..n];
      SnapshotConcat(a, b[..n]);
      assert Snapshot(a + b) == Snapshot(a) + Snapshot(b[..n]) + EntryOf(b[n]);
    }
  }

  /** No two entries name the same file. */
  predicate DistinctPaths(items: seq<Item>) {
    forall i, j :: 0 <= i < j < |items| && Truthy(items[i].filePath) ==> items[i].filePath != items[j].filePath
  }

  /** Every file an entry names can be read. */
  predicate Readable(items: seq<Item>, fs: FileSystem) {
    forall k :: 0 <= k < |items| && Truthy(items[k].filePath) ==> items[k].filePath.value in fs
  }

  /** Every tab bound to a file shows up in the snapshot. */
  lemma {:induction false} SnapshotHasBoundTab(tabs: seq<Tab>, j: int)
    requires 0 <= j < |tabs| && Truthy(tabs[j].path)
    ensures Item(tabs[j].path, None) in Snapshot(tabs)
    decreases |tabs|
  {
    var n := |tabs| - 1;
    if j < n {
      assert tabs[..n][j] == tabs[j];
      SnapshotHasBoundTab(tabs[..n], j);
    }
  }

  /** Replaying one entry: a truthy path is opened, otherwise present content
      becomes a new unbound tab, otherwise the entry is skipped. */
  function ReplayItem(w: Window, it: Item, fs: FileSystem): (r: Window)
    requires WellFormed(w)
    ensures WellFormed(r)
    ensures |w.tabs| <= |r.tabs| <= |w.tabs| + 1
    ensures Truthy(it.filePath) && it.filePath.value !in fs ==> r == w
    ensures Truthy(it.filePath) && it.filePath.value in fs ==>
      0 <= r.current < |r.tabs| && r.tabs[r.current].path == it.filePath
    ensures !Truthy(it.filePath) && it.content.None? ==> r == w
    ensures !Truthy(it.filePath) && it.content.Some? ==>
      |r.tabs| == |w.tabs| + 1 && r.tabs[..|w.tabs|] == w.tabs && r.tabs[|w.tabs|] == Tab(None, it.content.value, false)
  {
    if Truthy(it.filePath) then OpenFile(w, it.filePath.value, fs)
    else if it.content.Some? then NewTab(w, None, it.content.value)
    else w
  }

  /** Replay the entries in order. */
  function Replay(w: Window, items: seq<Item>, fs: FileSystem): (r: Window)
    requires WellFormed(w)
    ensures WellFormed(r)
    ensures |w.tabs| <= |r.tabs| <= |w.tabs| + |items|
    decreases |items|
  {
    if |items| == 0 then w else Replay(ReplayItem(w, items[0], fs), items[1..], fs)
  }

  /** The window `Notepad.__init__` builds before restoring: no tab. */
  function EmptyWindow(recent: seq<string>): (r: Window)
    ensures WellFormed(r) && r.tabs == []
  {
    Window([], -1, recent, "")
  }

  /** `restore_session`: a missing, empty or corrupt session gives one blank
      tab; otherwise the entries are replayed into the empty window. */
  function RestoreSession(stored: StoredSession, recent: seq<string>, fs: FileSystem): (r: Window)
    ensures WellFormed(r)
    ensures stored.NoSession? || stored.Corrupt? || stored == Decoded([]) ==>
      r.tabs == [Blank()] && r.current == 0 && r.recent == recent
    ensures stored.Decoded? && |stored.items| > 0 ==> |r.tabs| <= |stored.items|
  {
    var w0 := EmptyWindow(recent);
    match stored
    case NoSession => NewTab(w0, None, "")
    case Corrupt => NewTab(w0, None, "")
    case Decoded(items) => if |items| == 0 then NewTab(w0, None, "") else Replay(w0, items, fs)
  }

  /** The replay invariant: the last tab is the current one and cannot be taken
      over by the next `open_file`. */
  predicate FocusOnLast(w: Window) {
    && w.current == |w.tabs| - 1
    && (|w.tabs| > 0 ==> !Reusable(w.tabs[|w.tabs| - 1]))
  }

  /** A file named by no snapshot entry is not open in any tab. */
  lemma NotInSnapshotNotOpen(tabs: seq<Tab>, p: string)
    requires p != "" && Item(Some(p), None) !in Snapshot(tabs)
    ensures FindTab(tabs, p) == |tabs|
  {
  }

  /** One replay step of a well-shaped, new, readable entry appends a tab that
      contributes exactly that entry to the snapshot and keeps the focus on the
      last tab. */
  lemma ReplayItemAppends(w: Window, it: Item, fs: FileSystem)
    requires WellFormed(w) && FocusOnLast(w) && WellShaped(it)
    requires Truthy(it.filePath) ==> it.filePath.value in fs && Item(it.filePath, None) !in Snapshot(w.tabs)
    ensures FocusOnLast(ReplayItem(w, it, fs))
    ensures Snapshot(ReplayItem(w, it, fs).tabs) == Snapshot(w.tabs) + [it]
  {
    var w1 := ReplayItem(w, it, fs);
    if Truthy(it.filePath) {
      NotInSnapshotNotOpen(w.tabs, it.filePath.value);
    }
    assert |w1.tabs| == |w.tabs| + 1 && w1.tabs[..|w.tabs|] == w.tabs;
    assert EntryOf(w1.tabs[|w.tabs|]) == [it];
  }

  /** In a duplicate-free entry list, the file of an entry is named by no
      earlier entry. */
  lemma DistinctFirstIsNew(pre: seq<Item>, items: seq<Item>)
    requires |items| > 0 && Truthy(items[0].filePath) && DistinctPaths(pre + items)
    ensures Item(items[0].filePath, None) !in pre
  {
    var all := pre + items;
    forall m | 0 <= m < |pre|
      ensures pre[m] != Item(items[0].filePath, None)
    {
      assert all[m] == pre[m] && all[|pre|] == items[0];
    }
  }

  /** Appending one entry and then the rest is appending the whole list. */
  lemma AppendFirstThenRest(pre: seq<Item>, items: seq<Item>)
    requires |items| > 0
    ensures pre + [items[0]] + items[1..] == pre + items
  {
    assert [items[0]] + items[1..] == items;
  }

  /** Replaying a non-empty list replays its first entry, then the rest. */
  lemma ReplayUnfold(w: Window, items: seq<Item>, fs: FileSystem)
    requires WellFormed(w) && |items| > 0
    ensures Replay(w, items, fs) == Replay(ReplayItem(w, items[0], fs), items[1..], fs)
  {
  }

  /** One step of the replay: after the first entry, the rest of the list
      still meets the replay's preconditions, and the snapshot already holds
      the first entry. */
  lemma ReplayStepKeeps(w: Window, items: seq<Item>, fs: FileSystem)
    requires WellFormed(w) && FocusOnLast(w) && |items| > 0
    requires forall k :: 0 <= k < |items| ==> WellShaped(items[k])
    requires DistinctPaths(Snapshot(w.tabs) + items)
    requires Readable(items, fs)
    ensures WellFormed(ReplayItem(w, items[0], fs)) && FocusOnLast(ReplayItem(w, items[0], fs))
    ensures forall k :: 0 <= k < |items[1..]| ==> WellShaped(items[1..][k])
    ensures Snapshot(ReplayItem(w, items[0], fs).tabs) + items[1..] == Snapshot(w.tabs) + items
    ensures Readable(items[1..], fs)
  {
    var pre := Snapshot(w.tabs);
    if Truthy(items[0].filePath) {
      assert items[0].filePath.value in fs;
      DistinctFirstIsNew(pre, items);
    }
    ReplayItemAppends(w, items[0], fs);
    AppendFirstThenRest(pre, items);
    TailKeepsShape(items, fs);
  }

  /** Replaying well-shaped entries whose files are distinct, new to the
      window and readable appends exactly those entries to the snapshot. */
  lemma {:induction false} ReplayExtendsSnapshot(w: Window, items: seq<Item>, fs: FileSystem)
    requires WellFormed(w) && FocusOnLast(w)
    requires forall k :: 0 <= k < |items| ==> WellShaped(items[k])
    requires DistinctPaths(Snapshot(w.tabs) + items)
    requires Readable(items, fs)
    ensures Snapshot(Replay(w, items, fs).tabs) == Snapshot(w.tabs) + items
    decreases |items|
  {
    if |items| > 0 {
      ReplayStepKeeps(w, items, fs);
      ReplayUnfold(w, items, fs);
      ReplayExtendsSnapshot(ReplayItem(w, items[0], fs), items[1..], fs);
    }
  }

  /** Dropping the first entry keeps the entries well-shaped and their files
      readable. */
  lemma TailKeepsShape(items: seq<Item>, fs: FileSystem)
    requires |items| > 0 && Readable(items, fs)
    requires forall k :: 0 <= k < |items| ==> WellShaped(items[k])
    ensures Readable(items[1..], fs)
    ensures forall k :: 0 <= k < |items[1..]| ==> WellShaped(items[1..][k])
  {
    forall k | 0 <= k < |items| - 1
      ensures items[1..][k] == items[k + 1]
    {
    }
  }

  /** Restoring an empty snapshot gives a window whose snapshot is empty. */
  lemma RestoreEmptySnapshot(recent: seq<string>, fs: FileSystem)
    ensures Snapshot(RestoreSession(Decoded([]), recent, fs).tabs) == []
  {
    assert Snapshot([Blank()]) == Snapshot([]) + EntryOf(Blank());
  }

  /** A non-empty decoded session is replayed into the empty window. */
  lemma RestoreReplays(items: seq<Item>, recent: seq<string>, fs: FileSystem)
    requires |items| > 0
    ensures RestoreSession(Decoded(items), recent, fs) == Replay(EmptyWindow(recent), items, fs)
  {
  }

  /** Round trip: restoring a snapshot whose files are distinct and readable
      reproduces the same bound paths and inline contents, in the same order. */
  lemma {:induction false} SnapshotRestoreRoundTrip(tabs: seq<Tab>, recent: seq<string>, fs: FileSystem)
    requires DistinctPaths(Snapshot(tabs)) && Readable(Snapshot(tabs), fs)
    ensures Snapshot(RestoreSession(Decoded(Snapshot(tabs)), recent, fs).tabs) == Snapshot(tabs)
  {
    var items := Snapshot(tabs);
    if |items| == 0 {
      RestoreEmptySnapshot(recent, fs);
    } else {
      var w0 := EmptyWindow(recent);
      assert Snapshot(w0.tabs) + items == items;
      RestoreReplays(items, recent, fs);
      ReplayExtendsSnapshot(w0, items, fs);
    }
  }

  /** Unlike a blank-tab fallback, a stored session whose only entry names an
      unreadable file restores a window with no tab at all. */
  lemma RestoreCanLeaveNoTab(p: string, c: Option<string>, recent: seq<string>, fs: FileSystem)
    requires p != "" && p !in fs
    ensures RestoreSession(Decoded([Item(Some(p), c)]), recent, fs).tabs == []
  {
  }
}

=== FILE: tabs.dfy ===
/** The tab collection of one notepad window and the operations that create
    tabs, bind them to files and open files (`new_tab`, `set_tab_file_path`,
    `open_file`). */
module Tabs {
  import opened Common
  import opened RecentFiles

  /** One editor tab: the bound file (the widget's `file_path` property), the
      plain text, and the document's modified flag. */
  datatype Tab = Tab(path: Option<string>, text: string, modified: bool)

  /** The state of one window that the bookkeeping touches. `current` follows
      the tab widget's convention: -1 when there is no tab. `recent` is the
      recent-files list and `lastSearch` the query remembered for Find Next. */
  datatype Window = Window(tabs: seq<Tab>, current: int, recent: seq<string>, lastSearch: string)

  /** The readable files: a path is readable exactly when it is a key, and
      `fs[path]` is the text that reading it as UTF-8 in text mode returns
      (with `\r\n` and `\r` already turned into `\n`). Unreadable and
      undecodable files are both absent. */
  type FileSystem = map<string, string>

  /** The current index denotes a tab, or is -1 when there is none. */
  predicate WellFormed(w: Window) {
    if |w.tabs| == 0 then w.current == -1 else 0 <= w.current < |w.tabs|
  }

  /** A fresh "Untitled" tab. */
  function Blank(): Tab {
    Tab(None, "", false)
  }

  /** A tab that `open_file` may take over: no text and no file. */
  predicate Reusable(t: Tab) {
    t.text == "" && !Truthy(t.path)
  }

  /** The first tab bound to `path`, or `|tabs|` when no tab is. */
  function FindTab(tabs: seq<Tab>, path: string): (k: nat)
    ensures k <= |tabs|
    ensures k < |tabs| ==> tabs[k].path == Some(path)
    ensures forall j :: 0 <= j < k ==> tabs[j].path != Some(path)
    decreases |tabs|
  {
    if |tabs| == 0 || tabs[0].path == Some(path) then 0 else 1 + FindTab(tabs[1..], path)
  }

  /** Bind tab `i` to `path` and record the path as most recently used. */
  function SetTabFilePath(w: Window, i: int, path: string): (r: Window)
    requires 0 <= i < |w.tabs|
    ensures |r.tabs| == |w.tabs| && r.current == w.current && r.lastSearch == w.lastSearch
    ensures r.tabs[i].path == Some(path)
    ensures r.tabs[i].text == w.tabs[i].text && r.tabs[i].modified == w.tabs[i].modified
    ensures forall j :: 0 <= j < |w.tabs| && j != i ==> r.tabs[j] == w.tabs[j]
    ensures r.recent == AddToRecent(w.recent, path) && r.recent[0] == path
  {
    w.(tabs := w.tabs[i := w.tabs[i].(path := Some(path))], recent := AddToRecent(w.recent, path))
  }

  /** After binding tab `i` to `path`, looking the path up finds a tab bound
      to it no later than `i`: `open_file` then focuses instead of opening a
      second copy. */
  lemma BoundTabIsFound(w: Window, i: int, path: string)
    requires 0 <= i < |w.tabs|
    ensures FindTab(SetTabFilePath(w, i, path).tabs, path) <= i
  {
  }

  /** Append a tab holding `content`, select it, and bind it when `path` is
      truthy. */
  function NewTab(w: Window, path: Option<string>, content: string): (r: Window)
    ensures WellFormed(r)
    ensures |r.tabs| == |w.tabs| + 1 && r.tabs[..|w.tabs|] == w.tabs
    ensures r.current == |w.tabs|
    ensures r.tabs[r.current] == Tab(if Truthy(path) then path else None, content, false)
    ensures r.recent == if Truthy(path) then AddToRecent(w.recent, path.value) else w.recent
    ensures r.lastSearch == w.lastSearch
  {
    var n := |w.tabs|;
    var w1 := w.(tabs := w.tabs + [Tab(None, content, false)], current := n);
    assert w1.tabs[..n] == w.tabs;
    if Truthy(path) then SetTabFilePath(w1, n, path.value) else w1
  }

  /** Open `path` (the argument, or the open-dialog's answer, "" when it was
      cancelled). The file is read first; an unreadable file changes nothing.
      A path already open only moves the focus. Otherwise the file goes into
      the current tab when that tab is blank and unbound, else into a new tab
      at the end, and the path moves to the front of the recent list. */
  function OpenFile(w: Window, path: string, fs: FileSystem): (r: Window)
    requires WellFormed(w)
    ensures WellFormed(r)
    ensures r.lastSearch == w.lastSearch
    ensures path == "" || path !in fs ==> r == w
    ensures path != "" && path in fs && FindTab(w.tabs, path) < |w.tabs| ==>
      r.tabs == w.tabs && r.recent == w.recent && r.current == FindTab(w.tabs, path)
    ensures path != "" && path in fs && FindTab(w.tabs, path) == |w.tabs| ==>
      && 0 <= r.current < |r.tabs|
      && r.tabs[r.current] == Tab(Some(path), fs[path], false)
      && r.recent == AddToRecent(w.recent, path)
      && (if |w.tabs| > 0 && Reusable(w.tabs[w.current]) then
            && |r.tabs| == |w.tabs|
            && r.current == w.current
            && (forall j :: 0 <= j < |w.tabs| && j != w.current ==> r.tabs[j] == w.tabs[j])
          else
            && |r.tabs| == |w.tabs| + 1
            && r.tabs[..|w.tabs|] == w.tabs
            && r.current == |w.tabs|)
    ensures path != "" && path in fs ==> 0 <= r.current < |r.tabs| && r.tabs[r.current].path == Some(path)
  {
    if path == "" || path !in fs then w
    else
      var content := fs[path];
      var k := FindTab(w.tabs, path);
      if k < |w.tabs| then w.(current := k)
      else
        var w1 :=
          if |w.tabs| > 0 && Reusable(w.tabs[w.current]) then
            var c := w.current;
            SetTabFilePath(w.(tabs := w.tabs[c := w.tabs[c].(text := content, modified := false)]), c, path)
          else
            NewTab(w, Some(path), content);
        AddToRecentIdempotent(w.recent, path);
        w1.(recent := AddToRecent(w1.recent, path))
  }
}
